=== FILE: README.md ===
# Trade25 login flow and bullish-reason classifier, in Dafny

This project models the decision logic of two front-end components of the
Trade25 stock-screening app and proves properties about it.

- **LoginPage** (`login_page.dfy`). The page is a state machine. Its state is
  the form credentials, `loading`, `error`, `mockMode`, the test-user list and
  `showTestUsers`. Four events change it: a field edit, the mount-time test-user
  load, a submission, and a quick-login pick. Each handler is a pure function.
  It returns the next state and the side effects in the order they are issued:
  the login request, the `onLogin` session callback, and one navigation. A
  navigation is either `External(url)` (a full page load) or `Internal(route)`
  (a router change). The network is replaced by the outcome of the request. The
  outcome is a transport failure, or a response with an ok/non-ok status and a
  body that is unparsable, the JSON `null`, or an object with or without `user`.
- **BullishReason** (`bullish_reason.dfy`). `renderBullishReason` is modelled
  as a total function. It maps an optional reason to a muted `-` placeholder or
  to a styled directive: shown text, tooltip, strength, colour, weight, badge.
- **UserDashboard** (`user_dashboard.dfy`). This covers the mount-time fetch
  sequence of the two stock lists, the `stocks || []` defaulting and the
  "No records" row of an empty table.
- **Text** (`text.dfy`). ASCII `toLowerCase`, and `includes` together with a
  reference definition by occurrence index.
- **Wrappers** (`wrappers.dfy`) holds `Option`, which stands for JavaScript's
  `undefined`/`null`.

Four behaviours of the code shape the model:

- The login request body is `JSON.stringify(formData)`, so it carries only the
  credentials. The `isAdminLogin` flag decides the route locally and is not
  sent to the server. `LoginRequest` therefore carries only `Credentials`.
- Suppose a response has an ok status but its JSON body is `null`. Then
  `setMockMode(true)` has already run, and reading `user` of `null` throws
  before `onLogin` is called and before the routing decision. The login
  therefore fails on every path, admin paths included, with mock mode on
  (`NullBodyFailsEverywhere`).
- Suppose instead the body is an object without `user`. Then `onLogin(undefined)`
  runs after `setMockMode(true)`. On a non-admin path, reading `is_admin` then
  throws and the page reports the generic failure, so it shows the demo-mode
  banner and the error together (`OkWithoutUserReportsFailure`). On an admin
  path, `isAdminLogin ||` short-circuits the read, and the login counts as a
  success.
- The dashboard does not check `response.ok` for the stock lists. Any body that
  parses to a non-null value is used, and a missing `stocks` field becomes `[]`.
  If the entry-zone step throws, the breakout list is never requested.

Strings are `seq<char>`. A Dafny `char` is a Unicode scalar value, so it
matches one UTF-16 code unit, as JavaScript's `length` and `slice` count them,
only for characters inside the Basic Multilingual Plane. Lowercasing maps only
`A`–`Z`.

## Model

| member | source | states |
|---|---|---|
| LoginPage.Initial | frontend/src/components/pages/LoginPage.jsx:5-13 | The page starts with empty credentials, no error, not loading, no mock mode, no test users and the panel hidden. |
| LoginPage.HandleChange | frontend/src/components/pages/LoginPage.jsx:16-21 | An edit sets the named field to the new value and leaves the other field and all other state unchanged. |
| LoginPage.LoadTestUsers | frontend/src/components/pages/LoginPage.jsx:24-37 | The test-user list is replaced only by an ok response; a failed or thrown load leaves the state exactly as it was. |
| LoginPage.IsAdminLogin | frontend/src/components/pages/LoginPage.jsx:77 | The login counts as an admin login iff `/admin` occurs somewhere in the current path. |
| LoginPage.NullBodyFailsEverywhere | frontend/src/components/pages/LoginPage.jsx:52-66 | On any path, an ok response whose body is `null` fails with the generic error and the panel. Mock mode ends on, and nothing but the request is issued: no `onLogin` and no navigation. |
| LoginPage.AdminPathExamples | frontend/src/components/pages/LoginPage.jsx:77 | `/admin/login` is an admin path and `/login` is not. |
| LoginPage.TryMockLogin | frontend/src/components/pages/LoginPage.jsx:39-68 | The request always goes out first, and it is the only request. Mock mode is set iff the status is ok and the body parses. `onLogin` runs iff the status is ok and the body is an object, and it runs before any navigation. The attempt succeeds iff, in addition, the path is an admin path or a user is present. On success exactly one navigation follows: external to `/admin/dashboard` iff admin path OR `is_admin`, otherwise internal to `/invitation`. |
| LoginPage.BeginSubmit | frontend/src/components/pages/LoginPage.jsx:71-74 | While in flight: loading, no error, mock mode off, and form, list and panel untouched. |
| LoginPage.HandleSubmit | frontend/src/components/pages/LoginPage.jsx:70-84 | Every submission ends with loading off and keeps the form and the list. A failed attempt sets the fixed error message and asks for the panel. A successful one leaves no error and does not change the panel flag. |
| LoginPage.DoQuickLogin | frontend/src/components/pages/LoginPage.jsx:86-92 | The form becomes exactly the account's email and password, the panel is hidden, and nothing else changes. |
| LoginPage.DemoPanel | frontend/src/components/pages/LoginPage.jsx:124-127 | The panel is shown iff it was asked for and the list is non-empty. It lists exactly the first min(3, n) accounts, in order. |
| LoginPage.Step | frontend/src/components/pages/LoginPage.jsx:16-92 | Only a submission has side effects. It issues exactly one login request, carrying the current form. |
| LoginPage.OneRequestPerSubmit | frontend/src/components/pages/LoginPage.jsx:70-84 | Over any run of events, the number of login requests equals the number of submissions. |
| LoginPage.FailuresCollapse | frontend/src/components/pages/LoginPage.jsx:52-83 | A transport failure, a non-ok status and an unparsable body all yield the same page: the generic error, the panel requested, mock mode off, loading off, and only the request issued. |
| LoginPage.SuccessRouting | frontend/src/components/pages/LoginPage.jsx:54-62 | An accepted login issues, in order, the request, `onLogin(user)` and then one navigation. The navigation is external to the admin dashboard iff admin path OR `is_admin`, else internal to `/invitation`. Mock mode ends on and the error ends empty. |
| LoginPage.OkWithoutUserReportsFailure | frontend/src/components/pages/LoginPage.jsx:52-66 | On a non-admin path, an ok response whose body lacks `user` calls `onLogin` with nothing and turns mock mode on, and still reports the generic failure with the panel. |
| LoginPage.PanelAfterFailure | frontend/src/components/pages/LoginPage.jsx:79-82 | After any failed submission, the panel is visible iff the page holds at least one test user. |
| LoginPage.PanelAfterLoadAndFailure | frontend/src/components/pages/LoginPage.jsx:27-34 | Take a fresh page, a load, then a failed submission of any kind: transport failure, non-ok status, unparsable or `null` body, or a missing user on a non-admin path. The panel shows iff the load was ok with at least one account, and it lists a prefix of that load's accounts. |
| LoginPage.PickFromPanel | frontend/src/components/pages/LoginPage.jsx:124-131 | Picking the i-th panel entry fills the form with exactly the i-th account's credentials, hides the panel and issues no request. |
| Text.Lower | frontend/src/components/user/UserDashboard.jsx:159 | Lowercasing keeps the length, leaves no ASCII capital behind, maps each capital `A`–`Z` to its small letter, and leaves every other character as it is. |
| Text.Includes | frontend/src/components/pages/LoginPage.jsx:77 | A needle longer than the haystack is never included. The empty needle is always included, and so is a needle the haystack starts with. |
| Text.IncludesIff | frontend/src/components/user/UserDashboard.jsx:159 | The left-to-right `includes` search succeeds iff the needle occurs at some index of the haystack. |
| BullishReason.AnyIncluded | frontend/src/components/user/UserDashboard.jsx:159 | The `some` over the signal list is true iff some signal, lowercased, is included in the text. |
| BullishReason.IsStrong | frontend/src/components/user/UserDashboard.jsx:158-159 | A reason is strong iff its lowercased form contains the lowercased form of one of the five fixed signals. |
| BullishReason.ShortText | frontend/src/components/user/UserDashboard.jsx:162 | A reason of at most 30 characters is shown unchanged. A longer one is shown as 33 characters: its first 30 followed by `...`. |
| BullishReason.Render | frontend/src/components/user/UserDashboard.jsx:156-168 | The placeholder `-` is shown iff the reason is absent or empty. Otherwise the tooltip is the full reason, and strength is decided on the full reason. Green `#198754`, bold and the `Strong` badge each hold iff strong; otherwise the colour is blue `#0d6efd`, the weight is normal and there is no badge. The text is cut as `ShortText` says. |
| BullishReason.StrengthIgnoresCase | frontend/src/components/user/UserDashboard.jsx:159 | Two reasons that differ only in letter case have the same strength. |
| BullishReason.StrengthUnderCaseMapping | frontend/src/components/user/UserDashboard.jsx:159 | Upper-casing or lower-casing a reason does not change its strength. |
| BullishReason.SignalPastCutStillStrong | frontend/src/components/user/UserDashboard.jsx:159-162 | A signal, in any case, that lies wholly after the first 30 characters still makes the reason strong. The shown text is then the first 30 characters plus `...`. |
| BullishReason.NoLettersNeverStrong | frontend/src/components/user/UserDashboard.jsx:158-159 | A reason without ASCII letters is never strong. |
| BullishReason.ConfirmedBreakoutExample | frontend/src/components/user/UserDashboard.jsx:156-168 | "Confirmed Breakout pattern" is rendered strong, green, bold, with the badge, and shown unchanged. |
| BullishReason.LongPlainExample | frontend/src/components/user/UserDashboard.jsx:156-168 | A 41-character reason without a signal is rendered normal, blue, with no badge, and cut to 30 characters plus `...`. |
| UserDashboard.Initial | frontend/src/components/user/UserDashboard.jsx:105-107 | The dashboard starts loading, with both stock lists empty. |
| UserDashboard.StocksOrEmpty | frontend/src/components/user/UserDashboard.jsx:114 | A body's `stocks` list is used as given, and a body without it yields the empty list. |
| UserDashboard.FetchStocks | frontend/src/components/user/UserDashboard.jsx:109-124 | The entry-zone list is requested first. The breakout list is requested only if that step did not throw. Each list comes from its body's `stocks` or is `[]`, a list whose step threw keeps its previous value, and loading always ends. |
| UserDashboard.TableRows | frontend/src/components/user/UserDashboard.jsx:201-213 | An empty list renders exactly one "No records" row. A non-empty list renders one stock row per stock, in order, carrying that stock's symbol, name, sector and price, and its rendered bullish reason. |
| UserDashboard.FailedFetchShowsNoRecords | frontend/src/components/user/UserDashboard.jsx:109-124 | From a fresh dashboard, the entry-zone table shows just the "No records" row when its step threw or its body lacks `stocks`. The breakout table does so when the entry step threw (so breakout was never requested), or its own step threw, or its body lacks `stocks`. |

## Left out

- The real `fetch` calls, `response.json()`, `window.location.href`, React Router's `navigate` and the `onLogin` target. They become the `LoginOutcome`, `UsersLoad` and `StocksFetch` inputs and the `Effect` outputs.
- A submission is one atomic event. Edits, quick-login picks, the test-user load and further submissions that arrive while the login request is in flight are ordered wholly before or after it. In the source, the quick-login buttons stay clickable during a request, so a pick made then is overwritten by the failure path, which shows the panel again while the request carried the old form; `Run` cannot reach that state.
- React hook scheduling, state batching, and updates after unmount. These are runtime concerns. The model applies each handler's updates in program order.
- The ordering of `setMockMode(true)` relative to the navigation effect. State updates are not effects in this model, so the model states only that mock mode ends on after an ok response whose body parses.
- A 2xx test-user response whose body has no `test_users` array. The source would store `undefined`; the model's `Loaded` always carries a list.
- Falsy non-string reasons (`0`, `false`, `NaN`). The reason is modelled as an optional string, so only absence and `""` are falsy.
- BullishReason.ShortText: a reason with characters outside the Basic Multilingual Plane (an emoji, say) is shorter in the model than its UTF-16 length. The 30-character cut and the length test then count differently from the source, and the model cannot cut between the two halves of a surrogate pair. Dafny's `char` cannot hold a lone surrogate.
- LoginPage.TryMockLogin: `onLogin` and `navigate` are assumed to return normally. In the source, an exception thrown by either is caught by the same handler. An accepted login would then end on the failure page with mock mode on. `SuccessRouting` ("error ends empty") and `TryMockLogin` ("success iff ...") rest on this assumption.
- Full Unicode case mapping. Only ASCII `A`–`Z` are lowercased.
- `getSectorChartData`, which uses random numbers and floating-point averages, and the chart configuration and plugin registration. These are not decision logic.
- The dashboard's loading spinner, the row keys (`stock.symbol || idx`), the JSX markup and styles, the social-login links, and the button's `disabled={loading}`. None of these is decision logic. The handler itself does not guard against double submission, and the model claims no such guard.
- `admin_api_routes.py`: Flask handlers returning constant dummy JSON. It is not part of this model.

=== FILE: bullish_reason.dfy ===
/** `renderBullishReason` from the user dashboard: turns an optional free-text
    reason into a rendering directive. A reason is strong when, ignoring the
    case of ASCII letters, it contains one of five fixed signal phrases; the
    visible text is cut to 30 characters plus an ellipsis, while the strength
    is decided on the whole reason. */
module BullishReason {
  import opened Wrappers
  import opened Text

  const StrongSignals: seq<string> :=
    ["Breakout", "Entry Zone", "Strong Volume", "Golden Cross", "High Momentum"]

  /** Longest reason shown in full; longer ones are cut to this many characters. */
  const MaxShown: nat := 30
  const Ellipsis: string := "..."
  const Placeholder: string := "-"
  const StrongColor: string := "#198754"
  const NormalColor: string := "#0d6efd"
  const StrongBadge: string := "Strong"

  datatype Weight = Bold | Normal

  /** What the cell shows: the muted placeholder, or the styled reason with its
      full text kept as the tooltip. */
  datatype Directive =
    | Muted(text: string)
    | Styled(text: string, title: string, strong: bool, color: string, weight: Weight, badge: Option<string>)

  /** Reference definition of strength: some signal, lowercased, occurs in the
      lowercased reason. */
  ghost predicate HasStrongSignal(reason: string) {
    exists k :: k in StrongSignals && Includes(Lower(reason), Lower(k))
  }

  /** Whether any of the signals, lowercased, is included in `hay`; the
      signals are tried from the first, and the first match decides. */
  function AnyIncluded(hay: string, signals: seq<string>): (b: bool)
    ensures b <==> exists k :: k in signals && Includes(hay, Lower(k))
  {
    if |signals| == 0 then false
    else Includes(hay, Lower(signals[0])) || AnyIncluded(hay, signals[1..])
  }

  function IsStrong(reason: string): (b: bool)
    ensures b <==> HasStrongSignal(reason)
  {
    AnyIncluded(Lower(reason), StrongSignals)
  }

  /** The visible text: a reason longer than 30 characters is cut to its first
      30 characters followed by an ellipsis; a shorter one is shown whole. */
  function ShortText(reason: string): (t: string)
    ensures |reason| <= MaxShown ==> t == reason
    ensures |reason| > MaxShown ==> |t| == MaxShown + |Ellipsis| && t[..MaxShown] == reason[..MaxShown] && t[MaxShown..] == Ellipsis
  {
    if |reason| > MaxShown then reason[..MaxShown] + Ellipsis else reason
  }

  /** The directive for one table cell. Both an absent reason and the empty
      string count as missing and get the placeholder. */
  function Render(reason: Option<string>): (d: Directive)
    ensures d.Muted? <==> reason.None? || reason.value == ""
    ensures d.Muted? ==> d.text == Placeholder
    ensures d.Styled? ==> d.title == reason.value
    ensures d.Styled? ==> (d.strong <==> HasStrongSignal(reason.value))
    ensures d.Styled? ==> (d.color == StrongColor <==> d.strong)
    ensures d.Styled? ==> (d.color == NormalColor <==> !d.strong)
    ensures d.Styled? ==> (d.weight == Bold <==> d.strong)
    ensures d.Styled? ==> (d.badge == Some(StrongBadge) <==> d.strong) && (d.badge == None <==> !d.strong)
    ensures d.Styled? && |reason.value| <= MaxShown ==> d.text == reason.value
    ensures d.Styled? && |reason.value| > MaxShown ==>
      |d.text| == 33 && d.text[..30] == reason.value[..30] && d.text[30..] == "..."
  {
    match reason
    case None => Muted(Placeholder)
    case Some(r) =>
      if r == "" then Muted(Placeholder)
      else
        var strong := IsStrong(r);
        Styled(ShortText(r), r, strong,
               if strong then StrongColor else NormalColor,
               if strong then Bold else Normal,
               if strong then Some(StrongBadge) else None)
  }

  /** Strength does not depend on the case of the reason's letters. */
  lemma StrengthIgnoresCase(a: string, b: string)
    requires SameIgnoringCase(a, b)
    ensures IsStrong(a) == IsStrong(b)
  {
    SameIgnoringCaseLower(a, b);
  }

  /** In particular, upper- or lower-casing the whole reason keeps its strength. */
  lemma StrengthUnderCaseMapping(reason: string)
    ensures IsStrong(Upper(reason)) == IsStrong(reason)
    ensures IsStrong(Lower(reason)) == IsStrong(reason)
  {
    LowerOfUpper(reason);
    LowerIdempotent(reason);
  }

  /** A signal, in any letter case, placed entirely after the 30 shown
      characters still makes the reason strong, although the shown text is cut
      before it. */
  lemma SignalPastCutStillStrong(p: string, k: string, q: string, signal: string)
    requires signal in StrongSignals
    requires Lower(k) == Lower(signal)
    requires |p| >= MaxShown
    ensures Render(Some(p + k + q)).strong
    ensures Render(Some(p + k + q)).text == p[..MaxShown] + Ellipsis
  {
    var r := p + k + q;
    LowerConcat(p + k, q);
    LowerConcat(p, k);
    IncludesMiddle(Lower(p), Lower(signal), Lower(q));
    assert r[..MaxShown] == p[..MaxShown];
  }

  /** A reason with no ASCII letters is never strong: every signal starts with a letter. */
  lemma NoLettersNeverStrong(reason: string)
    requires forall i :: 0 <= i < |reason| ==> !IsUpper(reason[i]) && !IsLower(reason[i])
    ensures !IsStrong(reason)
  {
    forall k | k in StrongSignals
      ensures !Includes(Lower(reason), Lower(k))
    {
      assert IsLower(Lower(k)[0]);
      ExcludedByFirstChar(Lower(reason), Lower(k));
    }
  }

  /** "Confirmed Breakout pattern" is strong and short enough to be shown whole. */
  lemma ConfirmedBreakoutExample(r: string)
    requires r == "Confirmed Breakout pattern"
    ensures Render(Some(r)) == Styled(r, r, true, StrongColor, Bold, Some(StrongBadge))
  {
    var p, k, q := "Confirmed ", "Breakout", " pattern";
    assert p + k + q == r;
    LowerConcat(p + k, q);
    LowerConcat(p, k);
    IncludesMiddle(Lower(p), Lower(k), Lower(q));
    assert k in StrongSignals;
  }

  /** A 41-character reason without a signal is cut and shown as normal. */
  lemma LongPlainExample(r: string)
    requires r == "2024-07-15 10:30:00 +05:30 / 2024-07-16 1"
    ensures Render(Some(r)) == Styled("2024-07-15 10:30:00 +05:30 / 2...", r, false, NormalColor, Normal, None)
  {
    assert !IsStrong(r) by {
      forall i | 0 <= i < |r|
        ensures !IsUpper(r[i]) && !IsLower(r[i])
      {
        assert r[i] in "0123456789-: +/";
      }
      NoLettersNeverStrong(r);
    }
    assert ShortText(r) == "2024-07-15 10:30:00 +05:30 / 2..." by {
      assert r[..MaxShown] == "2024-07-15 10:30:00 +05:30 / 2";
    }
  }
}

=== FILE: login_page.dfy ===
/** The login page as a state machine. Every handler is a pure transition from
    the page state and one event to the next state plus the side effects it
    asks for: the login request, the session callback `onLogin`, and one
    navigation. The network is replaced by the outcome the request produced. */
module LoginPage {
  import opened Wrappers
  import opened Text

  datatype Credentials = Credentials(email: string, password: string)

  /** The `name` attribute of the two inputs `handleChange` is attached to. */
  datatype Field = Email | Password

  /** An entry of the demo-account list served by the mock backend. */
  datatype TestUser = TestUser(fullName: string, email: string, password: string, tier: string, isAdmin: bool)

  /** The `user` object of a successful login; only `is_admin` is read. */
  datatype UserProfile = UserProfile(isAdmin: bool, fullName: string)

  /** The body of the login response after `response.json()`: not JSON,
      the JSON value `null`, or an object whose `user` field may be absent. */
  datatype Body = Unparsable | NullJson | Json(user: Option<UserProfile>)

  /** What the login request produced: the transport failed, or a response
      arrived with an HTTP status that is ok (2xx) or not. */
  datatype LoginOutcome = NetworkFailure | Response(ok: bool, body: Body)

  /** The result of the mount-time test-user request: it threw (transport
      failure, unparsable body, or a `null` body), or a response with its status and list. */
  datatype UsersLoad = LoadThrew | Loaded(ok: bool, users: seq<TestUser>)

  /** Full-page navigation versus an in-app route change. */
  datatype Navigation = External(url: string) | Internal(route: string)

  datatype Effect =
    | LoginRequest(credentials: Credentials)
    | SessionLogin(user: Option<UserProfile>)
    | Navigate(to: Navigation)

  datatype State = State(
    form: Credentials,
    loading: bool,
    error: string,
    mockMode: bool,
    testUsers: seq<TestUser>,
    showTestUsers: bool)

  datatype Event =
    | Edit(field: Field, value: string)
    | UsersLoaded(load: UsersLoad)
    | Submit(path: string, outcome: LoginOutcome)
    | QuickLogin(user: TestUser)

  datatype Transition = Transition(state: State, effects: seq<Effect>)

  /** What `tryMockLogin` did: its return value, whether it reached
      `setMockMode(true)`, and the effects it issued in order. */
  datatype MockLogin = MockLogin(success: bool, mockModeSet: bool, effects: seq<Effect>)

  const FailureMessage: string := "Mock login failed. Please try again or use demo login below."
  const AdminDashboardUrl: string := "/admin/dashboard"
  const LandingRoute: string := "/invitation"
  const AdminMarker: string := "/admin"
  const DemoPanelSize: nat := 3

  function Initial(): (s: State)
    ensures s.form == Credentials("", "")
    ensures !s.loading && s.error == "" && !s.mockMode && !s.showTestUsers
    ensures |s.testUsers| == 0
  {
    State(Credentials("", ""), false, "", false, [], false)
  }

  /** `handleChange`: only the named field takes the new value. */
  function HandleChange(s: State, field: Field, value: string): (s': State)
    ensures field == Email ==> s'.form.email == value && s'.form.password == s.form.password
    ensures field == Password ==> s'.form.password == value && s'.form.email == s.form.email
    ensures s' == s.(form := s'.form)
  {
    match field
    case Email => s.(form := s.form.(email := value))
    case Password => s.(form := s.form.(password := value))
  }

  /** The mount effect: the list is replaced only by an ok response. */
  function LoadTestUsers(s: State, load: UsersLoad): (s': State)
    ensures load.Loaded? && load.ok ==> s'.testUsers == load.users
    ensures !(load.Loaded? && load.ok) ==> s' == s
    ensures s' == s.(testUsers := s'.testUsers)
  {
    if load.Loaded? && load.ok then s.(testUsers := load.users) else s
  }

  /** The login is an admin login when the current path contains `/admin`
      anywhere. */
  function IsAdminLogin(path: string): (b: bool)
    ensures b <==> exists i :: OccursAt(path, AdminMarker, i)
  {
    IncludesIff(path, AdminMarker);
    Includes(path, AdminMarker)
  }

  /** `tryMockLogin`. The request always goes out. A rejected status, a failed
      transport or an unparsable body returns false with nothing else done. On
      an ok status, mock mode is switched on and `onLogin(data.user)` runs before
      the routing decision; reading `data.user.is_admin` throws when the user is
      missing, unless the admin path already decided the route. */
  function TryMockLogin(form: Credentials, isAdminLogin: bool, outcome: LoginOutcome): (m: MockLogin)
    ensures 1 <= |m.effects| <= 3 && m.effects[0] == LoginRequest(form)
    ensures forall i :: 1 <= i < |m.effects| ==> !m.effects[i].LoginRequest?
    ensures m.mockModeSet <==> outcome.Response? && outcome.ok && !outcome.body.Unparsable?
    ensures |m.effects| >= 2 <==> outcome.Response? && outcome.ok && outcome.body.Json?
    ensures |m.effects| >= 2 ==> m.effects[1] == SessionLogin(outcome.body.user)
    ensures m.success <==> outcome.Response? && outcome.ok && outcome.body.Json? &&
                           (isAdminLogin || outcome.body.user.Some?)
    ensures m.success <==> |m.effects| == 3
    ensures m.success ==> m.effects[2].Navigate?
    ensures m.success ==>
      (m.effects[2].to == External(AdminDashboardUrl) <==>
        isAdminLogin || outcome.body.user.value.isAdmin)
    ensures m.success ==>
      (m.effects[2].to == Internal(LandingRoute) <==>
        !isAdminLogin && !outcome.body.user.value.isAdmin)
  {
    var request := [LoginRequest(form)];
    match outcome
    case NetworkFailure => MockLogin(false, false, request)
    case Response(ok, body) =>
      if !ok then MockLogin(false, false, request)
      else
        match body
        case Unparsable => MockLogin(false, false, request)
        case NullJson => MockLogin(false, true, request)
        case Json(user) =>
          var called := request + [SessionLogin(user)];
          if isAdminLogin then MockLogin(true, true, called + [Navigate(External(AdminDashboardUrl))])
          else
            match user
            case None => MockLogin(false, true, called)
            case Some(u) =>
              var to := if u.isAdmin then External(AdminDashboardUrl) else Internal(LandingRoute);
              MockLogin(true, true, called + [Navigate(to)])
  }

  /** The state `handleSubmit` shows while the request is in flight. */
  function BeginSubmit(s: State): (s': State)
    ensures s'.loading && s'.error == "" && !s'.mockMode
    ensures s'.form == s.form && s'.testUsers == s.testUsers && s'.showTestUsers == s.showTestUsers
  {
    s.(loading := true, error := "", mockMode := false)
  }

  /** `handleSubmit`: begin, run the login attempt, report a failure, and
      always end with loading switched off. */
  function HandleSubmit(s: State, path: string, outcome: LoginOutcome): (t: Transition)
    ensures !t.state.loading
    ensures t.state.form == s.form && t.state.testUsers == s.testUsers
    ensures t.effects == TryMockLogin(s.form, IsAdminLogin(path), outcome).effects
    ensures t.state.mockMode == TryMockLogin(s.form, IsAdminLogin(path), outcome).mockModeSet
    ensures TryMockLogin(s.form, IsAdminLogin(path), outcome).success ==>
      t.state.error == "" && t.state.showTestUsers == s.showTestUsers
    ensures !TryMockLogin(s.form, IsAdminLogin(path), outcome).success ==>
      t.state.error == FailureMessage && t.state.showTestUsers
  {
    var submitting := BeginSubmit(s);
    var m := TryMockLogin(submitting.form, IsAdminLogin(path), outcome);
    var afterLogin := submitting.(mockMode := m.mockModeSet);
    var reported := if m.success then afterLogin
                    else afterLogin.(error := FailureMessage, showTestUsers := true);
    Transition(reported.(loading := false), m.effects)
  }

  /** `quickLogin`: copy the account's credentials, hide the panel, send nothing. */
  function DoQuickLogin(s: State, u: TestUser): (s': State)
    ensures s'.form == Credentials(u.email, u.password)
    ensures !s'.showTestUsers
    ensures s' == s.(form := s'.form, showTestUsers := false)
  {
    s.(form := Credentials(u.email, u.password), showTestUsers := false)
  }

  /** The quick-login panel: shown only when asked for and non-empty, listing
      the first three accounts in order. */
  function DemoPanel(s: State): (panel: Option<seq<TestUser>>)
    ensures panel.Some? <==> s.showTestUsers && |s.testUsers| > 0
    ensures panel.Some? ==> |panel.value| <= DemoPanelSize
    ensures panel.Some? ==> |panel.value| == if |s.testUsers| < DemoPanelSize then |s.testUsers| else DemoPanelSize
    ensures panel.Some? ==> panel.value == s.testUsers[..|panel.value|]
  {
    if s.showTestUsers && |s.testUsers| > 0 then
      Some(if |s.testUsers| < DemoPanelSize then s.testUsers else s.testUsers[..DemoPanelSize])
    else None
  }

  function CountRequests(effects: seq<Effect>): nat {
    if |effects| == 0 then 0
    else (if effects[0].LoginRequest? then 1 else 0) + CountRequests(effects[1..])
  }

  function CountSubmits(events: seq<Event>): nat {
    if |events| == 0 then 0
    else (if events[0].Submit? then 1 else 0) + CountSubmits(events[1..])
  }

  /** One event handled by the page. Only a submission has side effects, and
      it issues exactly one login request. */
  function Step(s: State, e: Event): (t: Transition)
    ensures !e.Submit? ==> t.effects == []
    ensures e.Submit? ==> |t.effects| >= 1 && t.effects[0] == LoginRequest(s.form)
    ensures CountRequests(t.effects) == if e.Submit? then 1 else 0
  {
    match e
    case Edit(field, value) => Transition(HandleChange(s, field, value), [])
    case UsersLoaded(load) => Transition(LoadTestUsers(s, load), [])
    case QuickLogin(u) => Transition(DoQuickLogin(s, u), [])
    case Submit(path, outcome) =>
      var t := HandleSubmit(s, path, outcome);
      assert CountRequests(t.effects) == 1 by { OnlyFirstIsRequest(t.effects); }
      t
  }

  /** A sequence of events handled one after the other; the effects are
      collected in the order they were issued. */
  function Run(s: State, events: seq<Event>): (t: Transition)
    decreases |events|
  {
    if |events| == 0 then Transition(s, [])
    else
      var first := Step(s, events[0]);
      var rest := Run(first.state, events[1..]);
      Transition(rest.state, first.effects + rest.effects)
  }

  lemma OnlyFirstIsRequest(effects: seq<Effect>)
    requires |effects| >= 1 && effects[0].LoginRequest?
    requires forall i :: 1 <= i < |effects| ==> !effects[i].LoginRequest?
    ensures CountRequests(effects) == 1
  {
    NoRequests(effects[1..]);
  }

  lemma {:induction false} NoRequests(effects: seq<Effect>)
    requires forall i :: 0 <= i < |effects| ==> !effects[i].LoginRequest?
    ensures CountRequests(effects) == 0
  {
    if |effects| > 0 {
      NoRequests(effects[1..]);
    }
  }

  lemma {:induction false} CountRequestsConcat(a: seq<Effect>, b: seq<Effect>)
    ensures CountRequests(a + b) == CountRequests(a) + CountRequests(b)
  {
    if |a| == 0 {
      assert a + b == b;
    } else {
      assert (a + b)[1..] == a[1..] + b;
      CountRequestsConcat(a[1..], b);
    }
  }

  /** Over any run, the page sends exactly one login request per submission. */
  lemma {:induction false} OneRequestPerSubmit(s: State, events: seq<Event>)
    ensures CountRequests(Run(s, events).effects) == CountSubmits(events)
    decreases |events|
  {
    if |events| > 0 {
      var first := Step(s, events[0]);
      OneRequestPerSubmit(first.state, events[1..]);
      CountRequestsConcat(first.effects, Run(first.state, events[1..]).effects);
    }
  }

  /** A failure outcome that `tryMockLogin` turns into `false` before touching
      any state: transport failure, non-ok status, or an unparsable body. */
  predicate PlainFailure(outcome: LoginOutcome) {
    outcome.NetworkFailure? || !outcome.ok || outcome.body.Unparsable?
  }

  /** Rejection, transport failure and an unparsable body all lead to the same
      page: generic error, panel requested, no mock mode, just the one request. */
  lemma FailuresCollapse(s: State, path: string, outcome: LoginOutcome)
    requires PlainFailure(outcome)
    ensures HandleSubmit(s, path, outcome) ==
      Transition(s.(loading := false, error := FailureMessage, mockMode := false, showTestUsers := true),
                 [LoginRequest(s.form)])
  {
  }

  /** Routing after an accepted login: a full navigation to the admin
      dashboard when the path is an admin path OR the user is an admin,
      otherwise the in-app landing route; the session callback comes first. */
  lemma SuccessRouting(s: State, path: string, u: UserProfile)
    ensures HandleSubmit(s, path, Response(true, Json(Some(u)))).effects ==
      [LoginRequest(s.form), SessionLogin(Some(u)),
       Navigate(if IsAdminLogin(path) || u.isAdmin then External(AdminDashboardUrl) else Internal(LandingRoute))]
    ensures HandleSubmit(s, path, Response(true, Json(Some(u)))).state ==
      s.(loading := false, error := "", mockMode := true)
  {
  }

  /** An ok response whose body lacks `user`, on a non-admin path: `onLogin`
      has already been called with nothing and mock mode is on, yet the page
      reports the generic failure and offers the demo panel. */
  lemma OkWithoutUserReportsFailure(s: State, path: string)
    requires !IsAdminLogin(path)
    ensures HandleSubmit(s, path, Response(true, Json(None))) ==
      Transition(s.(loading := false, error := FailureMessage, mockMode := true, showTestUsers := true),
                 [LoginRequest(s.form), SessionLogin(None)])
  {
  }

  /** An ok response whose body is the JSON `null`: reading `user` throws
      before the routing decision, so the login fails on every path, admin
      paths included, with mock mode on and `onLogin` never called. */
  lemma NullBodyFailsEverywhere(s: State, path: string)
    ensures HandleSubmit(s, path, Response(true, NullJson)) ==
      Transition(s.(loading := false, error := FailureMessage, mockMode := true, showTestUsers := true),
                 [LoginRequest(s.form)])
  {
  }

  lemma AdminPathExamples()
    ensures IsAdminLogin("/admin/login")
    ensures !IsAdminLogin("/login")
  {
    IncludesMiddle("", AdminMarker, "/login");
    assert "" + AdminMarker + "/login" == "/admin/login";
    assert "/login"[..|AdminMarker|] != AdminMarker by { assert "/login"[1] != AdminMarker[1]; }
  }

  /** After a failed submission the demo panel is visible exactly when the
      page holds at least one test user. */
  lemma PanelAfterFailure(s: State, path: string, outcome: LoginOutcome)
    requires !TryMockLogin(s.form, IsAdminLogin(path), outcome).success
    ensures DemoPanel(HandleSubmit(s, path, outcome).state).Some? <==> |s.testUsers| > 0
  {
  }

  /** From a fresh page: after the mount-time load and a failed submission the
      panel shows iff the load succeeded with at least one account, and then
      it lists the first (up to three) accounts of that load. */
  lemma PanelAfterLoadAndFailure(load: UsersLoad, path: string, outcome: LoginOutcome)
    requires !TryMockLogin(Initial().form, IsAdminLogin(path), outcome).success
    ensures var s := Run(Initial(), [UsersLoaded(load), Submit(path, outcome)]).state;
      && (DemoPanel(s).Some? <==> load.Loaded? && load.ok && |load.users| > 0)
      && (DemoPanel(s).Some? ==> load.Loaded? && |DemoPanel(s).value| <= |load.users| &&
                                 DemoPanel(s).value == load.users[..|DemoPanel(s).value|])
  {
    var events := [UsersLoaded(load), Submit(path, outcome)];
    var s1 := Step(Initial(), events[0]).state;
    assert events[1..] == [Submit(path, outcome)];
    assert events[1..][1..] == [];
    var s2 := Step(s1, events[1]).state;
    assert Run(Initial(), events).state == Run(s1, events[1..]).state == Run(s2, []).state == s2;
  }

  /** Picking an account from the panel fills the form with exactly its
      credentials, hides the panel and issues no request. */
  lemma PickFromPanel(s: State, i: nat)
    requires DemoPanel(s).Some? && i < |DemoPanel(s).value|
    ensures var t := Step(s, QuickLogin(DemoPanel(s).value[i]));
      && t.state.form == Credentials(s.testUsers[i].email, s.testUsers[i].password)
      && DemoPanel(t.state).None?
      && t.effects == []
  {
  }
}

=== FILE: text.dfy ===
/** String helpers the components rely on: `toLowerCase` (ASCII letters only)
    and `includes` (substring search), each with an independent reference
    definition and a lemma connecting the two. */
module Text {

  predicate IsUpper(c: char) {
    'A' <= c <= 'Z'
  }

  predicate IsLower(c: char) {
    'a' <= c <= 'z'
  }

  /** `toLowerCase` on a single character; non-ASCII characters are left alone. */
  function LowerChar(c: char): (d: char)
    ensures !IsUpper(d)
    ensures d != c ==> IsUpper(c) && IsLower(d)
    ensures IsUpper(c) ==> d as int - c as int == 32
  {
    if IsUpper(c) then (c as int + 32) as char else c
  }

  /** `toUpperCase` on a single character, used only to state case invariance. */
  function UpperChar(c: char): (d: char)
    ensures !IsLower(d)
    ensures d != c ==> IsLower(c) && IsUpper(d)
  {
    if IsLower(c) then (c as int - 32) as char else c
  }

  /** `toLowerCase` on a whole string. */
  function Lower(s: string): (r: string)
    ensures |r| == |s|
    ensures forall i :: 0 <= i < |r| ==> !IsUpper(r[i])
    ensures forall i :: 0 <= i < |s| && !IsUpper(s[i]) ==> r[i] == s[i]
    ensures forall i :: 0 <= i < |s| && IsUpper(s[i]) ==> r[i] as int == s[i] as int + 32
  {
    seq(|s|, i requires 0 <= i < |s| => LowerChar(s[i]))
  }

  function Upper(s: string): (r: string)
    ensures |r| == |s|
  {
    seq(|s|, i requires 0 <= i < |s| => UpperChar(s[i]))
  }

  /** Two strings that differ only in the case of their ASCII letters. */
  ghost predicate SameIgnoringCase(a: string, b: string) {
    |a| == |b| && forall i :: 0 <= i < |a| ==> LowerChar(a[i]) == LowerChar(b[i])
  }

  lemma LowerIdempotent(s: string)
    ensures Lower(Lower(s)) == Lower(s)
  {
  }

  lemma LowerOfUpper(s: string)
    ensures Lower(Upper(s)) == Lower(s)
  {
  }

  lemma LowerConcat(a: string, b: string)
    ensures Lower(a + b) == Lower(a) + Lower(b)
  {
  }

  lemma SameIgnoringCaseLower(a: string, b: string)
    requires SameIgnoringCase(a, b)
    ensures Lower(a) == Lower(b)
  {
  }

  /** `t` sits in `s` starting at index `i`. */
  ghost predicate OccursAt(s: string, t: string, i: int) {
    0 <= i && i + |t| <= |s| && s[i..i + |t|] == t
  }

  /** `s.includes(t)`: tries each start position from the left. The empty
      string is included in every string. */
  function Includes(s: string, t: string): (b: bool)
    ensures b ==> |t| <= |s|
    ensures |t| == 0 ==> b
    ensures |t| <= |s| && s[..|t|] == t ==> b
    decreases |s|
  {
    |t| <= |s| && (s[..|t|] == t || Includes(s[1..], t))
  }

  lemma {:induction false} IncludesIff(s: string, t: string)
    ensures Includes(s, t) <==> exists i :: OccursAt(s, t, i)
    decreases |s|
  {
    if |t| <= |s| {
      if s[..|t|] == t {
        assert OccursAt(s, t, 0);
      } else {
        IncludesIff(s[1..], t);
        if Includes(s[1..], t) {
          var i :| OccursAt(s[1..], t, i);
          assert s[1..][i..i + |t|] == s[i + 1..i + 1 + |t|];
          assert OccursAt(s, t, i + 1);
        } else {
          forall i | OccursAt(s, t, i)
            ensures 0 < i && OccursAt(s[1..], t, i - 1)
          {
            assert s[1..][i - 1..i - 1 + |t|] == s[i..i + |t|];
          }
        }
      }
    }
  }

  lemma IncludesMiddle(p: string, t: string, q: string)
    ensures Includes(p + t + q, t)
  {
    var s := p + t + q;
    assert s[|p|..|p| + |t|] == t;
    assert OccursAt(s, t, |p|);
    IncludesIff(s, t);
  }

  /** A non-empty `t` whose first character never occurs in `s` is not included. */
  lemma ExcludedByFirstChar(s: string, t: string)
    requires |t| > 0
    requires forall i :: 0 <= i < |s| ==> s[i] != t[0]
    ensures !Includes(s, t)
  {
    IncludesIff(s, t);
  }
}

=== FILE: user_dashboard.dfy ===
/** The decision logic of the user dashboard around the two stock tables:
    the mount-time fetch sequence, the `stocks || []` defaulting, and the rule
    that an empty list renders a single "No records" row. */
module UserDashboard {
  import opened Wrappers
  import BullishReason

  const EntryZoneEndpoint: string := "/api/stocks/entry-zone"
  const BreakoutEndpoint: string := "/api/stocks/breakout"

  /** A stock as listed; `price` is kept as the text the cell shows. */
  datatype Stock = Stock(symbol: string, name: string, sector: string, price: string, bullishReason: Option<string>)

  /** What one awaited `fetch(...).json()` step yields. `Threw` covers a
      transport failure, an unparsable body and a `null` body (reading
      `.stocks` of `null` throws). Any other body is used whatever the HTTP
      status, with `stocks` absent when the body has no such field. */
  datatype StocksFetch = Threw | Body(stocks: Option<seq<Stock>>)

  datatype DashboardState = DashboardState(entryZone: seq<Stock>, breakout: seq<Stock>, loading: bool)

  /** The outcome of the mount effect: the final state and the endpoints
      requested, in order. */
  datatype FetchRun = FetchRun(state: DashboardState, requested: seq<string>)

  datatype Row =
    | NoRecords
    | StockRow(symbol: string, name: string, sector: string, price: string, reason: BullishReason.Directive)

  function Initial(): (s: DashboardState)
    ensures s.loading && s.entryZone == [] && s.breakout == []
  {
    DashboardState([], [], true)
  }

  /** The list from a body, or the empty list when the body has no `stocks`
      field. A present empty list is kept as it is. */
  function StocksOrEmpty(b: StocksFetch): (l: seq<Stock>)
    requires b.Body?
    ensures b.stocks.Some? ==> l == b.stocks.value
    ensures b.stocks.None? ==> l == []
  {
    b.stocks.GetOr([])
  }

  /** `fetchStocks`: the entry-zone list is fetched first; only if that step
      did not throw is the breakout list fetched. Loading ends in every case. */
  function FetchStocks(s: DashboardState, entry: StocksFetch, breakout: StocksFetch): (r: FetchRun)
    ensures !r.state.loading
    ensures |r.requested| >= 1 && r.requested[0] == EntryZoneEndpoint
    ensures entry.Threw? ==> r.state == s.(loading := false) && r.requested == [EntryZoneEndpoint]
    ensures entry.Body? ==> r.requested == [EntryZoneEndpoint, BreakoutEndpoint]
    ensures entry.Body? ==> r.state.entryZone == StocksOrEmpty(entry)
    ensures entry.Body? && breakout.Threw? ==> r.state.breakout == s.breakout
    ensures entry.Body? && breakout.Body? ==> r.state.breakout == StocksOrEmpty(breakout)
  {
    match entry
    case Threw => FetchRun(s.(loading := false), [EntryZoneEndpoint])
    case Body(_) =>
      var s1 := s.(entryZone := StocksOrEmpty(entry));
      var s2 := if breakout.Body? then s1.(breakout := StocksOrEmpty(breakout)) else s1;
      FetchRun(s2.(loading := false), [EntryZoneEndpoint, BreakoutEndpoint])
  }

  function RowOf(stock: Stock): Row {
    StockRow(stock.symbol, stock.name, stock.sector, stock.price, BullishReason.Render(stock.bullishReason))
  }

  /** The table body: one row per stock in order, or the single "No records" row. */
  function TableRows(stocks: seq<Stock>): (rows: seq<Row>)
    ensures |rows| >= 1
    ensures rows == [NoRecords] <==> |stocks| == 0
    ensures |stocks| > 0 ==> |rows| == |stocks|
    ensures |stocks| > 0 ==> forall i :: 0 <= i < |rows| ==>
              && rows[i].StockRow?
              && rows[i].symbol == stocks[i].symbol
              && rows[i].name == stocks[i].name
              && rows[i].sector == stocks[i].sector
              && rows[i].price == stocks[i].price
    ensures |stocks| > 0 ==> forall i :: 0 <= i < |rows| ==> rows[i].reason == BullishReason.Render(stocks[i].bullishReason)
  {
    if |stocks| == 0 then [NoRecords]
    else
      var rows := seq(|stocks|, i requires 0 <= i < |stocks| => RowOf(stocks[i]));
      assert rows[0].StockRow?;
      rows
  }

  /** From a fresh dashboard, each table whose step threw, was never reached,
      or got a body without `stocks` shows only the "No records" row. */
  lemma FailedFetchShowsNoRecords(entry: StocksFetch, breakout: StocksFetch)
    ensures (entry.Threw? || entry.stocks.None?) ==>
      TableRows(FetchStocks(Initial(), entry, breakout).state.entryZone) == [NoRecords]
    ensures (entry.Threw? || breakout.Threw? || breakout.stocks.None?) ==>
      TableRows(FetchStocks(Initial(), entry, breakout).state.breakout) == [NoRecords]
  {
  }
}

=== FILE: wrappers.dfy ===
/** The optional value used wherever the JavaScript code tests a value for
    being present (`!reason`, `data.user`, `data.stocks || []`). */
module Wrappers {

  /** `None` stands for JavaScript's `undefined` / `null`. */
  datatype Option<+T> = None | Some(value: T) {

    /** The value, or `default` when absent (the `x || default` idiom). */
    function GetOr(default: T): (r: T)
      ensures Some? ==> r == value
      ensures None? ==> r == default
    {
      match this
      case Some(v) => v
      case None => default
    }
  }
}
